=== FILE: README.md ===
# Crawljax command-line front-end, modelled in Dafny

This project models the entry point of the Crawljax command-line tool, the
`JarRunner` class. It turns the process arguments into a crawl configuration,
prints the version or the help screen, and maps failures to exit statuses.
The model is functional. Every Java exception becomes a `Failure` value.
Every visible side effect becomes an `Effect`: a line on standard output or
standard error, the help screen, or the start of the crawl.

Files and modules:

- `wrappers.dfy` (`Wrappers`): `Option` for nullable references, `Result` for calls that return or throw.
- `java_lang.dfy` (`JavaLang`): the library behaviour the class relies on.
  It covers the exceptions, `Integer.parseInt`, `String.valueOf(int)`,
  `equalsIgnoreCase`, null-to-string conversion and Guava's `Joiner`.
- `cli_options.dfy` (`CliOptions`): the option schema and the parsed command line.
- `browsers.dfy` (`Browsers`): the case-insensitive lookup of `-b` against the browser enumeration.
- `crawl_config.dfy` (`CrawlConfig`): `readConfig`.
- `console.dfy` (`Console`): the visible effects.
- `output_dir.dfy` (`OutputDir`): `checkOutDir`.
- `jar_runner.dfy` (`JarRunner`): the constructor, `runIfConfigured` and `main`.
- `runner_properties.dfy` (`RunnerProperties`): properties of whole runs and worked command lines.

Some inputs are abstract parameters (`JarRunner.Env`):

- the URL validator, as a predicate on strings;
- the browser enumeration, as its constant names in declaration order. Java's enumeration always holds `firefox`. The model assumes this only where `JarRunner.DefaultIsConstant` is required;
- the packaged version text, or the I/O error from reading it;
- the state of the output path (absent, an ordinary file, or a directory with entries);
- the outcome of deleting that directory.

The parser's result enters as a value. It is either the set of options
present, their values and the positionals, or a parse error message. The
raw argument list is given as well, because the constructor tests its length.

## Behaviour worth knowing

Some of what the class does is not what its own option texts suggest:

- The help option is declared as "print this message" (`JarRunner.java:99`),
  but it is never read. Help is printed when there is no version flag and
  fewer than two raw arguments. With two or more raw arguments, `-h` is
  ignored (`RunnerProperties.HelpFlagIgnoredWithTwoPositionals`).
- The help-or-build choice counts raw arguments, flags included, and not
  positionals. `-o http://example.com` therefore fails with an array index
  error that prints `1`, instead of showing help
  (`RunnerProperties.RawCountNotPositionals`, `RunnerProperties.OverrideFlagCountsAsArgument`).
- This class makes no sign or range check on the depth, state-limit and
  parallel values. Every `int` is handed to the builder
  (`CrawlConfig.NoRangeCheckOnLimits`). Whatever the external builder does
  with such values is outside this model.
- The option texts at `JarRunner.java:105` and `JarRunner.java:107-108` say
  the depth defaults to 2 and the state limit to 0. This class sets those
  values only when their flags are present and otherwise leaves them to the
  builder, so the model does not claim 2 and 0.
- The override flag is used only by the directory check. It is not part of
  the configuration.
- An existing ordinary file given as output directory makes the check throw
  `NullPointerException`, which prints `null` and exits with 1
  (`RunnerProperties.OrdinaryFileAsOutputDirectory`).

## Model

| member | source | states |
|---|---|---|
| `JavaLang.ParseInt` | cli/src/main/java/com/crawljax/cli/JarRunner.java:175-189 | `Integer.parseInt` succeeds exactly on an optionally signed decimal that fits an `int`, and returns its value. Anything else throws `NumberFormatException`. The message is `For input string: "<s>"`, or `null` for a null value. |
| `JavaLang.Exc.Message` | cli/src/main/java/com/crawljax/cli/JarRunner.java:60-63 | The text `main` prints for an exception: the message it was built with. For an array index error it is the index in decimal, which parses back to that index. For a null pointer error it is what Java prints for null. |
| `JavaLang.FormatInt` | cli/src/main/java/com/crawljax/cli/JarRunner.java:79-80 | The decimal form of an `int`, as the index error raised at these lines carries it: non-empty, a minus sign exactly for negatives, then digits denoting the magnitude with no leading zero. |
| `JavaLang.NatToStringDigits` | cli/src/main/java/com/crawljax/cli/JarRunner.java:79-80 | The decimal form of a natural number is a non-empty run of digits that denotes it, with no leading zero unless the number is 0. |
| `JavaLang.ParseFormatRoundTrip` | cli/src/main/java/com/crawljax/cli/JarRunner.java:181-189 | Every `int` written in decimal parses back to the same `int`, negative values included. |
| `JavaLang.EqualsIgnoreCase` | cli/src/main/java/com/crawljax/cli/JarRunner.java:201 | `equalsIgnoreCase` holds exactly when the lower-cased names are equal, so it is an equivalence. |
| `JavaLang.JoinContains` | cli/src/main/java/com/crawljax/cli/JarRunner.java:116-118 | Every browser name appears in the `", "`-joined list, after the names that precede it. |
| `JavaLang.Join` | cli/src/main/java/com/crawljax/cli/JarRunner.java:117 | `Joiner.on(", ").join` starts with the first part and is as long as the parts plus one separator per gap; the empty list joins to the empty string. |
| `JavaLang.JoinListsEvery` | cli/src/main/java/com/crawljax/cli/JarRunner.java:116-118 | Every part occurs in the joined string. |
| `CliOptions.OptionTable` | cli/src/main/java/com/crawljax/cli/JarRunner.java:97-114 | The schema has seven options, each once, in declaration order. Exactly browser, depth, maxstates and parallel take a value. |
| `CliOptions.EveryOptionDeclared` | cli/src/main/java/com/crawljax/cli/JarRunner.java:98-112 | Every recognised option is declared in the schema. |
| `CliOptions.OptionByName` | cli/src/main/java/com/crawljax/cli/JarRunner.java:99-112 | A name resolves to an option exactly when it is that option's short or long form. |
| `CliOptions.OptionNamesResolve` | cli/src/main/java/com/crawljax/cli/JarRunner.java:99-112 | Each option's short and long names resolve back to it, so no two options share a name. |
| `CliOptions.NamesDiffer` | cli/src/main/java/com/crawljax/cli/JarRunner.java:99-112 | Two different options never share a short name or a long name, and no short name equals a long one. |
| `Browsers.FirstMatch` | cli/src/main/java/com/crawljax/cli/JarRunner.java:199-205 | Finds the first enumeration constant equal to the input ignoring case. `None` means that no constant matches. |
| `Browsers.AvailableBrowsers` | cli/src/main/java/com/crawljax/cli/JarRunner.java:116-118 | `availableBrowsers` names every browser constant, starting with the first one. |
| `Browsers.BrowserTypeFromStr` | cli/src/main/java/com/crawljax/cli/JarRunner.java:198-208 | Succeeds exactly when a non-null input matches some constant ignoring case. It returns the first such constant. Otherwise it throws `IllegalArgumentException` with `Unrecognized browser: '<input>'. Available browsers are: ` followed by the joined list. |
| `Browsers.BrowserLookupFindsConstant` | cli/src/main/java/com/crawljax/cli/JarRunner.java:198-205 | If the constants are pairwise distinct ignoring case, any spelling of a constant selects exactly that constant. |
| `Browsers.UnknownBrowserListsEveryConstant` | cli/src/main/java/com/crawljax/cli/JarRunner.java:116-118 | The unknown-browser message contains every constant's name. |
| `CrawlConfig.OptionalInt` | cli/src/main/java/com/crawljax/cli/JarRunner.java:181-189 | Depth or maxstates is set only when its flag is present, to the parsed value. A bad value throws `NumberFormatException`. |
| `CrawlConfig.ReadConfig` | cli/src/main/java/com/crawljax/cli/JarRunner.java:166-196 | A configuration is built exactly when every present value is valid. It has the given URL, the report bound to the output directory and default-element clicking on. With `-b` it holds the constant that `-b` selects; without it, firefox. The browser count is 1 or the parsed `-p`. Depth and states are set exactly when their flags are present. Errors come in source order: a bad browser first, then a bad `-p`, then `-d`, then `-s`, and each is the error of that value. |
| `CrawlConfig.ReadConfigDefaults` | cli/src/main/java/com/crawljax/cli/JarRunner.java:169-193 | With no value flags, the configuration is firefox, one browser, depth and states left to the builder, the report in the output directory, and default elements clicked. |
| `CrawlConfig.NoRangeCheckOnLimits` | cli/src/main/java/com/crawljax/cli/JarRunner.java:175-189 | Any `int` given for the browser count, depth and maxstates, negative ones included, reaches the configuration unchanged. |
| `OutputDir.CheckOutDir` | cli/src/main/java/com/crawljax/cli/JarRunner.java:135-150 | An absent or empty directory is left alone. A non-empty one without override throws `IllegalStateException` and is left unchanged. With override, the notice is printed and the whole directory is deleted; a failed deletion throws `RuntimeException` with its message. An existing ordinary file throws `NullPointerException`. After success the path is usable, and the path changes only with override. |
| `OutputDir.CheckOutDirSettles` | cli/src/main/java/com/crawljax/cli/JarRunner.java:135-149 | A path the check accepted passes a second check untouched, whatever the flags. |
| `JarRunner.NewJarRunner` | cli/src/main/java/com/crawljax/cli/JarRunner.java:69-90 | A parse error becomes `IllegalArgumentException`. Once the URL is accepted, the runner's output and the path's final state are those of the directory check, and an exception from the check is the runner's. A configuration exists exactly when the version flag is absent, there are at least two raw arguments and two positionals, the URL is valid, the directory check passes and every value is valid. The configuration is exactly the one `readConfig` builds from the first positional, a valid URL, and the second, the report directory, and the directory is left usable. The path changes only with override on a non-empty directory. The constructor never starts a crawl. |
| `JarRunner.HelpScreenFor` | cli/src/main/java/com/crawljax/cli/JarRunner.java:126-133 | `printHelp` shows the usage line and every declared option, and the browser option's text names every browser constant. |
| `JarRunner.Main` | cli/src/main/java/com/crawljax/cli/JarRunner.java:55-66 | The exit status is 0 or 1. It is 0 exactly when construction succeeds and either no configuration exists or the crawl completes. A crawl starts on a configuration exactly when the constructor built it. A constructor exception is printed to standard error after the constructor's own output, as `Could not parse number ` plus its message for a `NumberFormatException` and as its message otherwise. A runner without a configuration prints nothing more. With a configuration, the crawl is started, and an exception from it is printed the same way. |
| `RunnerProperties.VersionFlagWins` | cli/src/main/java/com/crawljax/cli/JarRunner.java:76-77 | With the version flag, the version is printed, no configuration is built and no crawl starts, whatever the other arguments. The output path is untouched. An unreadable version resource gives status 1. |
| `RunnerProperties.HelpExactlyOnShortCommandLine` | cli/src/main/java/com/crawljax/cli/JarRunner.java:76-89 | Help alone is printed exactly when parsing succeeds, the version flag is absent and there are fewer than two raw arguments. |
| `RunnerProperties.RawCountNotPositionals` | cli/src/main/java/com/crawljax/cli/JarRunner.java:78-80 | Two or more raw arguments with fewer than two positionals throw an index error whose index is the positional count. `main` prints that index and exits with 1. |
| `RunnerProperties.UrlCheckedFirst` | cli/src/main/java/com/crawljax/cli/JarRunner.java:81-82 | A rejected URL gives `provide a valid URL like http://example.com` and status 1, and the output path is not touched. |
| `RunnerProperties.ConflictLeavesDirectory` | cli/src/main/java/com/crawljax/cli/JarRunner.java:137-148 | A non-empty directory without override prints the conflict message, exits with 1, and is left as it was. |
| `RunnerProperties.DirectoryDeletedBeforeValuesParsed` | cli/src/main/java/com/crawljax/cli/JarRunner.java:84-85 | With override on a non-empty directory and a bad browser or number, the notice is printed first, the directory ends up deleted, the status is 1, and no crawl starts. |
| `RunnerProperties.CrawlStartsExactlyWhenConfigured` | cli/src/main/java/com/crawljax/cli/JarRunner.java:57-58 | A crawl starts exactly when every gate of the constructor passes and every value is valid. |
| `RunnerProperties.PlainCommandLine` | cli/src/main/java/com/crawljax/cli/JarRunner.java:78-85 | `http://example.com /tmp/out` crawls with firefox and one browser, leaves depth and states to the builder, and exits with 0. |
| `RunnerProperties.VersionOnly` | cli/src/main/java/com/crawljax/cli/JarRunner.java:76-77 | `--version` prints the packaged version and exits with 0. |
| `RunnerProperties.NoArguments` | cli/src/main/java/com/crawljax/cli/JarRunner.java:87-88 | An empty command line prints help and exits with 0. |
| `RunnerProperties.FtpUrlRejected` | cli/src/main/java/com/crawljax/cli/JarRunner.java:81-82 | An ftp URL that the validator rejects gives the URL message and status 1. |
| `RunnerProperties.BadValueReportedAfterDirectoryCheck` | cli/src/main/java/com/crawljax/cli/JarRunner.java:84-85 | Once the URL and the directory are accepted, an invalid browser or number is printed to standard error after the directory check's own output. The directory stays as the check left it, and the status is 1. |
| `RunnerProperties.NonNumericDepth` | cli/src/main/java/com/crawljax/cli/JarRunner.java:59-61 | A `-d` value that is not a signed decimal prints `Could not parse number For input string: "<value>"` and exits with 1. |
| `RunnerProperties.HelpFlagIgnoredWithTwoPositionals` | cli/src/main/java/com/crawljax/cli/JarRunner.java:76-86 | `-h http://example.com /tmp/out` crawls, because the help flag is never read. |
| `RunnerProperties.OrdinaryFileAsOutputDirectory` | cli/src/main/java/com/crawljax/cli/JarRunner.java:135-137 | An ordinary file as output directory makes the check throw `NullPointerException`; `main` prints `null`, exits with 1 and leaves the file. |
| `RunnerProperties.OverrideThenCrawl` | cli/src/main/java/com/crawljax/cli/JarRunner.java:137-141 | `-o url dir` on a non-empty directory that deletes cleanly prints the override notice, crawls with the defaults, exits with 0 and leaves the path absent. |
| `RunnerProperties.AllValueFlags` | cli/src/main/java/com/crawljax/cli/JarRunner.java:166-195 | `-b chrome -p 2 -d 5 -s 10 http://example.com /tmp/out` crawls with the chrome constant, two browsers, depth 5 and at most 10 states, and exits with 0. |
| `RunnerProperties.AllValueFlagsConfig` | cli/src/main/java/com/crawljax/cli/JarRunner.java:166-195 | `readConfig` turns those four flags into the chrome constant, 2, 5 and 10. |
| `RunnerProperties.StartedBrowserIsConstant` | cli/src/main/java/com/crawljax/cli/JarRunner.java:169-172 | When the enumeration holds `firefox`, every crawl runs on one of the enumeration's constants, with or without `-b`. |
| `RunnerProperties.OverrideFlagCountsAsArgument` | cli/src/main/java/com/crawljax/cli/JarRunner.java:78-80 | `-o http://example.com` counts as two raw arguments, so the missing directory lookup throws and `1` is printed. |

## Left out

- Argument parsing by commons-cli's `GnuParser` (line 72) is a foreign library. Its result is an input value.
- Help rendering by `HelpFormatter` (lines 126-133) is a foreign library. The help effect records the usage line and the option table but not the formatted text.
- The URL validator's rules (line 163) belong to a foreign library. The validator is a predicate parameter.
- File-system access (lines 136-141) is I/O. The output path is an abstract state, and a deletion outcome is a parameter. A directory whose listing fails for an I/O reason is not modelled, and neither is path aliasing.
- Reading the version resource (lines 152-158) is resource I/O. The text or the I/O error message is a parameter. A resource missing from the class path is not modelled.
- The configuration builder, the browser configuration, the report plugin and the crawling engine (lines 167, 179, 183, 188, 191-195, 212-213) are external. The model records only the settings this class passes to the builder. Any check the builder or its setters make is not modelled. The engine's run is a parameter that either completes or throws.
- Errors that are not `RuntimeException`s (for example out-of-memory errors) escape `main`'s handlers. They are not modelled.
- Printing and `System.exit` are modelled as the effects list and the exit status.
- `JavaLang.ParseInt`: only ASCII digits are modelled. `Character.digit` also accepts other Unicode decimal digits. The leading `+` accepted since JDK 7 and the JDK 7/8 exception messages are modelled.
- `JavaLang.EqualsIgnoreCase`: only ASCII letters are case-mapped. Java also folds non-ASCII letters.
- Exception messages follow JDK 7/8: an array index error's message is the bare index, and a null pointer error's message is null.

=== FILE: browsers.dfy ===
/** Resolving the `-b` value against the browser enumeration. The
    enumeration is owned by the browser-automation layer; the model takes its
    constant names, in declaration order, as a parameter. */
module Browsers {
  import opened Wrappers
  import opened JavaLang

  /** The browser used when `-b` is absent. */
  const DefaultBrowser: string := "firefox"

  /** No two constants of the enumeration are equal ignoring case, as holds
      for distinct lower-case identifiers. */
  predicate CaseDistinct(types: seq<string>) {
    forall i, j :: 0 <= i < j < |types| ==> !EqualsIgnoreCase(types[i], types[j])
  }

  /** `availableBrowsers`: the constants joined with ", " in declaration
      order; every constant's name occurs in it, the first one leading. */
  function AvailableBrowsers(types: seq<string>): (list: string)
    ensures forall i :: 0 <= i < |types| ==> Occurs(types[i], list)
    ensures |types| > 0 ==> types[0] <= list
  {
    JoinListsEvery(", ", types);
    Join(", ", types)
  }

  /** Index of the first constant equal to `name` ignoring case. */
  function FirstMatch(name: string, types: seq<string>): (k: Option<nat>)
    ensures k.Some? ==> k.value < |types| && EqualsIgnoreCase(name, types[k.value])
    ensures k.Some? ==> forall j :: 0 <= j < k.value ==> !EqualsIgnoreCase(name, types[j])
    ensures k.None? ==> forall j :: 0 <= j < |types| ==> !EqualsIgnoreCase(name, types[j])
    decreases |types|
  {
    if |types| == 0 then None
    else if EqualsIgnoreCase(name, types[0]) then Some(0)
    else match FirstMatch(name, types[1..])
      case None => None
      case Some(k) => Some(k + 1)
  }

  function UnrecognizedBrowserMessage(browser: Option<string>, types: seq<string>): (m: string) {
    "Unrecognized browser: '" + StringValueOf(browser) + "'. Available browsers are: " + AvailableBrowsers(types)
  }

  /** `getBrowserTypeFromStr`: the first constant whose name equals the
      input ignoring case; a null or unmatched input throws
      `IllegalArgumentException` naming the input and listing every
      constant. */
  function BrowserTypeFromStr(browser: Option<string>, types: seq<string>): (r: Result<string, Exc>)
    ensures r.Success? <==> browser.Some? && exists j :: 0 <= j < |types| && EqualsIgnoreCase(browser.value, types[j])
    ensures r.Success? ==>
      (exists k :: 0 <= k < |types| && r.value == types[k] && EqualsIgnoreCase(browser.value, types[k])
        && (forall j :: 0 <= j < k ==> !EqualsIgnoreCase(browser.value, types[j])))
    ensures r.Failure? ==> r.error == IllegalArgument(UnrecognizedBrowserMessage(browser, types))
  {
    if browser.None? then Failure(IllegalArgument(UnrecognizedBrowserMessage(browser, types)))
    else match FirstMatch(browser.value, types)
      case Some(k) => Success(types[k])
      case None => Failure(IllegalArgument(UnrecognizedBrowserMessage(browser, types)))
  }

  /** When the constants are case-distinct, any spelling of a constant
      selects exactly that constant. */
  lemma BrowserLookupFindsConstant(name: string, types: seq<string>, i: nat)
    requires CaseDistinct(types)
    requires i < |types| && EqualsIgnoreCase(name, types[i])
    ensures BrowserTypeFromStr(Some(name), types) == Success(types[i])
  {
  }

  /** The error for an unknown browser names every constant. */
  lemma UnknownBrowserListsEveryConstant(browser: Option<string>, types: seq<string>, i: nat)
    returns (before: string, after: string)
    requires i < |types|
    requires BrowserTypeFromStr(browser, types).Failure?
    ensures BrowserTypeFromStr(browser, types).error.msg == before + types[i] + after
  {
    var b, a := JoinContains(", ", types, i);
    before := "Unrecognized browser: '" + StringValueOf(browser) + "'. Available browsers are: " + b;
    after := a;
  }
}

=== FILE: cli_options.dfy ===
/** The command-line schema the front-end declares and the parsed command
    line it consults. Parsing itself (Apache commons-cli's `GnuParser`) is a
    foreign library: its result enters the model as a `ParseResult` value. */
module CliOptions {
  import opened Wrappers

  /** The seven recognised options. */
  datatype Opt = Help | Version | Browser | Depth | MaxStates | Parallel | Override

  /** The order in which the options are declared. */
  const DeclarationOrder: seq<Opt> := [Help, Version, Browser, Depth, MaxStates, Parallel, Override]

  lemma EveryOptionDeclared(o: Opt)
    ensures o in DeclarationOrder
  {
  }

  /** The options that take a value. */
  predicate TakesValue(o: Opt) {
    o == Browser || o == Depth || o == MaxStates || o == Parallel
  }

  function ShortName(o: Opt): (name: string) {
    match o
    case Help => "h"
    case Version => "v"
    case Browser => "b"
    case Depth => "d"
    case MaxStates => "s"
    case Parallel => "p"
    case Override => "o"
  }

  function LongName(o: Opt): (name: string) {
    match o
    case Help => "help"
    case Version => "version"
    case Browser => "browser"
    case Depth => "depth"
    case MaxStates => "maxstates"
    case Parallel => "parallel"
    case Override => "override"
  }

  /** The help text of an option; the browser option lists the browser
      names it is given. */
  function Description(o: Opt, availableBrowsers: string): (text: string) {
    match o
    case Help => "print this message"
    case Version => "print the version information and exit"
    case Browser => "browser type: " + availableBrowsers + ". Default is Firefox"
    case Depth => "crawl depth level. Default is 2"
    case MaxStates => "max number of states to crawl. Default is 0 (unlimited)"
    case Parallel => "Number of browsers to use for crawling. Default is 1"
    case Override => "Override the output directory if non-empty"
  }

  /** One row of the schema: `-short`, `--long`, whether a value follows,
      and the text the help screen shows. */
  datatype OptionSpec = OptionSpec(opt: Opt, shortName: string, longName: string, hasArg: bool, description: string)

  /** The schema, in declaration order: every option once, and a value
      expected exactly for browser, depth, maxstates and parallel. */
  function OptionTable(availableBrowsers: string): (t: seq<OptionSpec>)
    ensures |t| == |DeclarationOrder|
    ensures forall i, j :: 0 <= i < j < |t| ==> t[i].opt != t[j].opt
    ensures forall i :: 0 <= i < |t| ==> t[i].opt == DeclarationOrder[i]
    ensures forall i :: 0 <= i < |t| ==> (t[i].hasArg <==> TakesValue(t[i].opt))
  {
    seq(|DeclarationOrder|, i requires 0 <= i < |DeclarationOrder| =>
      var o := DeclarationOrder[i];
      OptionSpec(o, ShortName(o), LongName(o), TakesValue(o), Description(o, availableBrowsers)))
  }

  /** The first of `opts` that has `name` as its short or long form. */
  function FindByName(name: string, opts: seq<Opt>): (r: Option<Opt>)
    ensures r.Some? ==> r.value in opts && (name == ShortName(r.value) || name == LongName(r.value))
    ensures r.None? ==> forall o :: o in opts ==> name != ShortName(o) && name != LongName(o)
    decreases |opts|
  {
    if |opts| == 0 then None
    else if name == ShortName(opts[0]) || name == LongName(opts[0]) then Some(opts[0])
    else FindByName(name, opts[1..])
  }

  /** Resolves a name, short or long, to the declared option it denotes,
      as commons-cli's `Options` does when `hasOption` or `getOptionValue`
      is given a name. */
  function OptionByName(name: string): (r: Option<Opt>)
    ensures r.Some? ==> name == ShortName(r.value) || name == LongName(r.value)
    ensures r.None? ==> forall o: Opt :: name != ShortName(o) && name != LongName(o)
  {
    var r := FindByName(name, DeclarationOrder);
    assert r.None? ==> forall o: Opt :: name != ShortName(o) && name != LongName(o) by {
      forall o: Opt ensures o in DeclarationOrder {
        EveryOptionDeclared(o);
      }
    }
    r
  }

  /** The search stops at the first option bearing the name. */
  lemma {:induction false} FindByNameFirst(name: string, opts: seq<Opt>, k: nat)
    requires k < |opts| && (name == ShortName(opts[k]) || name == LongName(opts[k]))
    requires forall j :: 0 <= j < k ==> name != ShortName(opts[j]) && name != LongName(opts[j])
    ensures FindByName(name, opts) == Some(opts[k])
    decreases k
  {
    if k > 0 {
      FindByNameFirst(name, opts[1..], k - 1);
    }
  }

  /** Each option's short and long names resolve back to it; in
      particular no two options share a name. */
  lemma OptionNamesResolve(o: Opt)
    ensures OptionByName(ShortName(o)) == Some(o)
    ensures OptionByName(LongName(o)) == Some(o)
  {
    var k :| 0 <= k < |DeclarationOrder| && DeclarationOrder[k] == o by {
      EveryOptionDeclared(o);
    }
    forall j | 0 <= j < |DeclarationOrder| && j != k
      ensures ShortName(DeclarationOrder[j]) != ShortName(o) && LongName(DeclarationOrder[j]) != ShortName(o)
      ensures ShortName(DeclarationOrder[j]) != LongName(o) && LongName(DeclarationOrder[j]) != LongName(o)
    {
      NamesDiffer(DeclarationOrder[j], o);
    }
    FindByNameFirst(ShortName(o), DeclarationOrder, k);
    FindByNameFirst(LongName(o), DeclarationOrder, k);
  }

  /** Names of different options never coincide: short names are one
      character, long ones longer, and both are pairwise distinct. */
  lemma NamesDiffer(a: Opt, b: Opt)
    requires a != b
    ensures ShortName(a) != ShortName(b) && LongName(a) != LongName(b)
    ensures ShortName(a) != LongName(b)
  {
    assert |ShortName(a)| == 1 < |LongName(b)|;
    assert ShortName(a)[0] != ShortName(b)[0];
    assert LongName(a)[..2] != LongName(b)[..2] || |LongName(a)| != |LongName(b)|;
  }

  /** A successfully parsed command line: the options present, the values
      of those given one, and the leftover positional arguments in order. */
  datatype CommandLine = CommandLine(present: set<Opt>, values: map<Opt, string>, args: seq<string>) {

    predicate HasOption(o: Opt) {
      o in present
    }

    /** `getOptionValue`: null (`None`) when no value was recorded. */
    function GetOptionValue(o: Opt): (v: Option<string>)
      ensures v.Some? <==> o in values
      ensures v.Some? ==> v.value == values[o]
    {
      if o in values then Some(values[o]) else None
    }
  }

  /** What the parser hands back: a command line, or the message of the
      `ParseException` it threw. */
  datatype ParseResult = Parsed(cl: CommandLine) | ParseError(msg: string)
}

=== FILE: console.dfy ===
/** What a run makes visible: lines on the standard streams, the help
    screen, and the hand-off of a configuration to the crawling engine. */
module Console {
  import CliOptions
  import CrawlConfig

  datatype Effect =
    | Stdout(line: string)
    | Stderr(line: string)
      /** The help screen: the usage line and the declared option schema it
          is rendered from (the rendering may order the rows differently). */
    | HelpScreen(syntax: string, options: seq<CliOptions.OptionSpec>)
      /** The engine is started on this configuration. */
    | CrawlStarted(config: CrawlConfig.Config)
}

=== FILE: crawl_config.dfy ===
/** `readConfig`: assembling the crawl configuration from the parsed command
    line once the URL and the output directory have been accepted. The
    configuration builder is external; the model records the settings this
    layer hands it, and leaves unset what this layer leaves to the builder. */
module CrawlConfig {
  import opened Wrappers
  import opened JavaLang
  import opened CliOptions
  import opened Browsers

  /** The report plugin, bound to the output directory. */
  datatype Plugin = CrawlOverview(outputFolder: string)

  /** The settings passed to the configuration builder. `None` for the
      depth or the state limit means the builder's own default stands. */
  datatype Config = Config(
    url: string,
    browser: string,
    numberOfBrowsers: int,
    maximumDepth: Option<int>,
    maximumStates: Option<int>,
    plugins: seq<Plugin>,
    clickDefaultElements: bool)

  /** The browser count used when `-p` is absent. */
  const DefaultNumberOfBrowsers: int := 1

  /** A present value that `Integer.parseInt` accepts. */
  predicate ParsesAsInt(cl: CommandLine, o: Opt) {
    ParseInt(cl.GetOptionValue(o)).Success?
  }

  /** `-b` is absent or names a constant. */
  predicate BrowserValid(cl: CommandLine, types: seq<string>) {
    cl.HasOption(Browser) ==> BrowserTypeFromStr(cl.GetOptionValue(Browser), types).Success?
  }

  /** An integer option is absent or holds a parsable value. */
  predicate IntValid(cl: CommandLine, o: Opt) {
    cl.HasOption(o) ==> ParsesAsInt(cl, o)
  }

  /** Every value-taking option that is present holds a valid value. */
  predicate ValuesValid(cl: CommandLine, types: seq<string>) {
    && BrowserValid(cl, types)
    && IntValid(cl, Parallel)
    && IntValid(cl, Depth)
    && IntValid(cl, MaxStates)
  }

  /** An integer option that is set only when present. */
  function OptionalInt(cl: CommandLine, o: Opt): (r: Result<Option<int>, Exc>)
    ensures r.Success? <==> !cl.HasOption(o) || ParsesAsInt(cl, o)
    ensures r.Success? ==> (r.value.Some? <==> cl.HasOption(o))
    ensures r.Success? && r.value.Some? ==> ParseInt(cl.GetOptionValue(o)) == Success(r.value.value)
    ensures r.Failure? ==> r.error.NumberFormat?
  {
    if cl.HasOption(o) then
      var n :- ParseInt(cl.GetOptionValue(o));
      Success(Some(n))
    else Success(None)
  }

  /** `readConfig(url, outputDir)`. The values are read in the order
      browser, parallel, depth, maxstates, and the first bad one throws;
      no sign or range check is made on the numbers. */
  function ReadConfig(cl: CommandLine, url: string, outputDir: string, types: seq<string>): (r: Result<Config, Exc>)
    ensures r.Success? <==> ValuesValid(cl, types)
    ensures r.Success? ==> r.value.url == url
    ensures r.Success? ==> r.value.plugins == [CrawlOverview(outputDir)] && r.value.clickDefaultElements
    ensures r.Success? ==> (if cl.HasOption(Browser) then r.value.browser in types else r.value.browser == DefaultBrowser)
    ensures r.Success? && cl.HasOption(Browser) ==>
      BrowserTypeFromStr(cl.GetOptionValue(Browser), types) == Success(r.value.browser)
    ensures r.Success? ==> InInt32(r.value.numberOfBrowsers)
    ensures r.Success? && !cl.HasOption(Parallel) ==> r.value.numberOfBrowsers == DefaultNumberOfBrowsers
    ensures r.Success? && cl.HasOption(Parallel) ==> ParseInt(cl.GetOptionValue(Parallel)) == Success(r.value.numberOfBrowsers)
    ensures r.Success? ==> (r.value.maximumDepth.Some? <==> cl.HasOption(Depth))
    ensures r.Success? && cl.HasOption(Depth) ==> ParseInt(cl.GetOptionValue(Depth)) == Success(r.value.maximumDepth.value)
    ensures r.Success? ==> (r.value.maximumStates.Some? <==> cl.HasOption(MaxStates))
    ensures r.Success? && cl.HasOption(MaxStates) ==> ParseInt(cl.GetOptionValue(MaxStates)) == Success(r.value.maximumStates.value)
    ensures cl.HasOption(Browser) && BrowserTypeFromStr(cl.GetOptionValue(Browser), types).Failure? ==>
      r == Failure(IllegalArgument(UnrecognizedBrowserMessage(cl.GetOptionValue(Browser), types)))
    ensures BrowserValid(cl, types) && !IntValid(cl, Parallel) ==>
      r == Failure(ParseInt(cl.GetOptionValue(Parallel)).error)
    ensures BrowserValid(cl, types) && IntValid(cl, Parallel) && !IntValid(cl, Depth) ==>
      r == Failure(ParseInt(cl.GetOptionValue(Depth)).error)
    ensures BrowserValid(cl, types) && IntValid(cl, Parallel) && IntValid(cl, Depth) && !IntValid(cl, MaxStates) ==>
      r == Failure(ParseInt(cl.GetOptionValue(MaxStates)).error)
    ensures r.Failure? ==> r.error.IllegalArgument? || r.error.NumberFormat?
  {
    var browser :- if cl.HasOption(Browser) then BrowserTypeFromStr(cl.GetOptionValue(Browser), types)
                   else Success(DefaultBrowser);
    var browsers :- if cl.HasOption(Parallel) then ParseInt(cl.GetOptionValue(Parallel))
                    else Success(DefaultNumberOfBrowsers);
    var depth :- OptionalInt(cl, Depth);
    var maxStates :- OptionalInt(cl, MaxStates);
    Success(Config(url, browser, browsers, depth, maxStates, [CrawlOverview(outputDir)], true))
  }

  /** With no value-taking option present: firefox, one browser, depth and
      state limit left to the builder, report bound to the output directory,
      default elements clicked. */
  lemma ReadConfigDefaults(cl: CommandLine, url: string, outputDir: string, types: seq<string>)
    requires !cl.HasOption(Browser) && !cl.HasOption(Parallel)
    requires !cl.HasOption(Depth) && !cl.HasOption(MaxStates)
    ensures ReadConfig(cl, url, outputDir, types)
         == Success(Config(url, "firefox", 1, None, None, [CrawlOverview(outputDir)], true))
  {
  }

  /** Any `int` written in decimal is accepted as browser count, depth or
      state limit, negative ones included: this layer checks no sign and no
      range. */
  lemma NoRangeCheckOnLimits(cl: CommandLine, url: string, outputDir: string, types: seq<string>,
                             browsers: int, depth: int, states: int)
    requires InInt32(browsers) && InInt32(depth) && InInt32(states)
    requires cl.present == {Parallel, Depth, MaxStates}
    requires cl.values == map[Parallel := FormatInt(browsers), Depth := FormatInt(depth), MaxStates := FormatInt(states)]
    ensures ReadConfig(cl, url, outputDir, types).Success?
    ensures ReadConfig(cl, url, outputDir, types).value.numberOfBrowsers == browsers
    ensures ReadConfig(cl, url, outputDir, types).value.maximumDepth == Some(depth)
    ensures ReadConfig(cl, url, outputDir, types).value.maximumStates == Some(states)
  {
    ParseFormatRoundTrip(browsers);
    ParseFormatRoundTrip(depth);
    ParseFormatRoundTrip(states);
  }
}

=== FILE: jar_runner.dfy ===
/** The command-line entry point: the `JarRunner(String[])` constructor,
    which prints the version, prints help or builds a configuration;
    `runIfConfigured`, which starts the crawl only when a configuration was
    built; and `main`, which turns the exceptions of both into an exit
    status. */
module JarRunner {
  import opened Wrappers
  import opened JavaLang
  import opened CliOptions
  import opened Browsers
  import opened CrawlConfig
  import opened Console
  import opened OutputDir

  /** The usage line of the help screen. */
  const HelpSyntax: string := "java -jar crawljax-cli-version.jar theUrl theOutputDir"
  const InvalidUrlMessage: string := "provide a valid URL like http://example.com"
  const NumberFormatPrefix: string := "Could not parse number "

  /** Everything a run consults besides its arguments: the URL validator
      (accepting http and https only), the browser enumeration's constant
      names in order, the packaged version text or the I/O error reading it,
      the state of the output path, and what deleting it would do. Java's
      enumeration always holds `firefox`; `DefaultIsConstant` states that
      for the lemmas that rely on it. */
  datatype Env = Env(
    validUrl: string -> bool,
    browserTypes: seq<string>,
    versionResource: Result<string, string>,
    outputDir: DirState,
    deletion: Deletion)

  /** The default browser is one of the enumeration's constants. */
  predicate DefaultIsConstant(env: Env) {
    DefaultBrowser in env.browserTypes
  }

  /** A constructed runner, or the exception the constructor threw, with
      what was printed and the output path's state at that point.
      `Success(None)` is a runner whose configuration stays null. */
  datatype Runner = Runner(effects: seq<Effect>, dir: DirState, result: Result<Option<Config>, Exc>)

  /** What the crawling engine does when started. */
  datatype CrawlRun = CrawlCompletes | CrawlThrows(e: Exc)

  /** How the process ends: everything it made visible, the output path's
      final state, and the exit status. */
  datatype Termination = Termination(effects: seq<Effect>, dir: DirState, exitCode: int)

  /** `urlIsInvalid`: null, or rejected by the http/https validator. */
  function UrlIsInvalid(url: Option<string>, validUrl: string -> bool): (r: bool)
    ensures r <==> url.None? || !validUrl(url.value)
  {
    url.None? || !validUrl(url.value)
  }

  /** `getCrawljaxVersion`: an I/O error reading the resource is rethrown as
      a `RuntimeException` carrying its message. */
  function CrawljaxVersion(resource: Result<string, string>): (r: Result<string, Exc>)
    ensures r.Success? <==> resource.Success?
    ensures r.Success? ==> r.value == resource.value
    ensures r.Failure? ==> r.error == Runtime(resource.error)
  {
    match resource
    case Success(text) => Success(text)
    case Failure(msg) => Failure(Runtime(msg))
  }

  /** The help screen `printHelp` shows: the usage line and every declared
      option, the browser option's text naming every browser constant. */
  function HelpScreenFor(types: seq<string>): (screen: Effect)
    ensures screen.HelpScreen? && screen.syntax == HelpSyntax
    ensures |screen.options| == |DeclarationOrder|
    ensures forall i :: 0 <= i < |screen.options| ==> screen.options[i].opt == DeclarationOrder[i]
    ensures forall i, j :: 0 <= i < |screen.options| && screen.options[i].opt == Browser && 0 <= j < |types| ==>
      Occurs(types[j], screen.options[i].description)
  {
    var list := AvailableBrowsers(types);
    var table := OptionTable(list);
    assert forall j :: 0 <= j < |types| ==> Occurs(types[j], Description(Browser, list)) by {
      forall j | 0 <= j < |types| ensures Occurs(types[j], Description(Browser, list)) {
        OccursInContext(types[j], "browser type: ", list, ". Default is Firefox");
      }
    }
    HelpScreen(HelpSyntax, table)
  }

  /** Whether the constructor reaches `readConfig`: no version flag, at
      least two raw arguments, two positionals, a valid URL, and an output
      directory that passed the check. */
  predicate ReachesReadConfig(args: seq<string>, cl: CommandLine, env: Env) {
    && !cl.HasOption(Version)
    && |args| >= 2
    && |cl.args| >= 2
    && !UrlIsInvalid(Some(cl.args[0]), env.validUrl)
    && CheckOutDir(env.outputDir, cl.HasOption(Override), env.deletion).failure.None?
  }

  /** The constructor `JarRunner(args)`, given what the parser made of
      `args`. The help/build choice looks at the raw argument count, flags
      included, not at the number of positionals. */
  function NewJarRunner(args: seq<string>, parsed: ParseResult, env: Env): (r: Runner)
    ensures parsed.ParseError? ==> r == Runner([], env.outputDir, Failure(IllegalArgument(parsed.msg)))
    ensures r.result.Success? && r.result.value.Some? <==>
      parsed.Parsed? && ReachesReadConfig(args, parsed.cl, env)
        && ValuesValid(parsed.cl, env.browserTypes)
    ensures r.result.Success? && r.result.value.Some? ==>
      var config := r.result.value.value;
      && config.url == parsed.cl.args[0]
      && env.validUrl(config.url)
      && config.plugins == [CrawlOverview(parsed.cl.args[1])]
      && Usable(r.dir)
    ensures r.result.Success? && r.result.value.Some? ==>
      ReadConfig(parsed.cl, parsed.cl.args[0], parsed.cl.args[1], env.browserTypes) == Success(r.result.value.value)
    ensures parsed.Parsed? && !parsed.cl.HasOption(Version) && |args| >= 2 && |parsed.cl.args| >= 2
              && !UrlIsInvalid(Some(parsed.cl.args[0]), env.validUrl) ==>
      var check := CheckOutDir(env.outputDir, parsed.cl.HasOption(Override), env.deletion);
      && r.effects == check.effects
      && r.dir == check.dir
      && (check.failure.Some? ==> r.result == Failure(check.failure.value))
    ensures r.dir != env.outputDir ==>
      parsed.Parsed? && parsed.cl.HasOption(Override) && NonEmptyDirectory(env.outputDir)
    ensures (forall config :: CrawlStarted(config) !in r.effects)
  {
    match parsed
    case ParseError(msg) => Runner([], env.outputDir, Failure(IllegalArgument(msg)))
    case Parsed(cl) =>
      if cl.HasOption(Version) then
        match CrawljaxVersion(env.versionResource)
        case Success(text) => Runner([Stdout(text)], env.outputDir, Success(None))
        case Failure(e) => Runner([], env.outputDir, Failure(e))
      else if |args| >= 2 then
        if |cl.args| == 0 then Runner([], env.outputDir, Failure(IndexOutOfBounds(0)))
        else if |cl.args| == 1 then Runner([], env.outputDir, Failure(IndexOutOfBounds(1)))
        else
          var url := cl.args[0];
          var outputDir := cl.args[1];
          if UrlIsInvalid(Some(url), env.validUrl) then
            Runner([], env.outputDir, Failure(IllegalArgument(InvalidUrlMessage)))
          else
            var check := CheckOutDir(env.outputDir, cl.HasOption(Override), env.deletion);
            if check.failure.Some? then Runner(check.effects, check.dir, Failure(check.failure.value))
            else
              match ReadConfig(cl, url, outputDir, env.browserTypes)
              case Success(config) => Runner(check.effects, check.dir, Success(Some(config)))
              case Failure(e) => Runner(check.effects, check.dir, Failure(e))
      else Runner([HelpScreenFor(env.browserTypes)], env.outputDir, Success(None))
  }

  /** `runIfConfigured`: starts the engine only on a configuration. */
  function RunIfConfigured(config: Option<Config>, crawl: CrawlRun): (r: (seq<Effect>, Option<Exc>))
    ensures config.None? ==> r == ([], None)
    ensures config.Some? ==> r.0 == [CrawlStarted(config.value)]
    ensures r.1.Some? <==> config.Some? && crawl.CrawlThrows?
  {
    match config
    case None => ([], None)
    case Some(c) => ([CrawlStarted(c)], if crawl.CrawlThrows? then Some(crawl.e) else None)
  }

  /** The error-stream line `main` prints for a caught exception; the
      number-format handler comes first. */
  function Report(e: Exc): (line: string)
    ensures e.NumberFormat? ==> line == NumberFormatPrefix + e.msg
    ensures !e.NumberFormat? ==> line == e.Message()
  {
    if e.NumberFormat? then NumberFormatPrefix + e.Message() else e.Message()
  }

  /** `main(args)`: every exception from the constructor or the crawl is
      reported on the error stream and ends the process with status 1;
      otherwise `main` returns and the status is 0. */
  function Main(args: seq<string>, parsed: ParseResult, env: Env, crawl: CrawlRun): (t: Termination)
    ensures t.exitCode == 0 || t.exitCode == 1
    ensures t.dir == NewJarRunner(args, parsed, env).dir
    ensures forall config :: CrawlStarted(config) in t.effects <==>
      NewJarRunner(args, parsed, env).result == Success(Some(config))
    ensures t.exitCode == 0 <==>
      NewJarRunner(args, parsed, env).result.Success?
        && (NewJarRunner(args, parsed, env).result.value.None? || crawl.CrawlCompletes?)
    ensures NewJarRunner(args, parsed, env).result.Failure? ==>
      t.effects == NewJarRunner(args, parsed, env).effects
                   + [Stderr(Report(NewJarRunner(args, parsed, env).result.error))]
    ensures NewJarRunner(args, parsed, env).result == Success(None) ==>
      t.effects == NewJarRunner(args, parsed, env).effects
    ensures NewJarRunner(args, parsed, env).result.Success? && NewJarRunner(args, parsed, env).result.value.Some? ==>
      t.effects == NewJarRunner(args, parsed, env).effects
                   + [CrawlStarted(NewJarRunner(args, parsed, env).result.value.value)]
                   + (if crawl.CrawlThrows? then [Stderr(Report(crawl.e))] else [])
  {
    var runner := NewJarRunner(args, parsed, env);
    match runner.result
    case Failure(e) => Termination(runner.effects + [Stderr(Report(e))], runner.dir, 1)
    case Success(config) =>
      var (shown, thrown) := RunIfConfigured(config, crawl);
      match thrown
      case None => Termination(runner.effects + shown, runner.dir, 0)
      case Some(e) => Termination(runner.effects + shown + [Stderr(Report(e))], runner.dir, 1)
  }
}

=== FILE: java_lang.dfy ===
/** The slice of the Java platform and of its helper libraries that the
    command-line front-end leans on: the exceptions it throws and catches,
    `Integer.parseInt`, `String.valueOf(int)`, `String.equalsIgnoreCase`,
    string concatenation of a possibly-null reference, and Guava's
    `Joiner.on(sep).join`. Behaviour is that of JDK 7/8 restricted to ASCII
    letters and digits. */
module JavaLang {
  import opened Wrappers

  /** Bounds of a Java `int`. */
  const INT_MIN: int := -0x8000_0000
  const INT_MAX: int := 0x7fff_ffff

  predicate InInt32(n: int) {
    INT_MIN <= n <= INT_MAX
  }

  /** The unchecked exceptions that can leave the front-end's constructor.
      Every one of them is a `RuntimeException`. */
  datatype Exc =
    | IllegalArgument(msg: string)
    | IllegalState(msg: string)
    | Runtime(msg: string)
    | NumberFormat(msg: string)
    | IndexOutOfBounds(index: int)
    | NullPointer
  {
    /** `getMessage()`, as `println` renders it: the message an exception
        was built with; for an `ArrayIndexOutOfBoundsException` the bad
        index in decimal, which reads back as that index; and for a
        `NullPointerException`, whose message is null, what Java prints
        for a null reference. */
    function Message(): (m: string)
      ensures (IllegalArgument? || IllegalState? || Runtime? || NumberFormat?) ==> m == msg
      ensures IndexOutOfBounds? && InInt32(index) ==> ParseInt(Some(m)) == Success(index)
      ensures NullPointer? ==> m == StringValueOf(None)
    {
      match this
      case IllegalArgument(m) => m
      case IllegalState(m) => m
      case Runtime(m) => m
      case NumberFormat(m) => m
      case IndexOutOfBounds(i) => ParseFormatRoundTrip(i); FormatInt(i)
      case NullPointer => "null"
    }
  }

  /** Java's string conversion of a reference that may be null. */
  function StringValueOf(s: Option<string>): (r: string)
    ensures s.Some? ==> r == s.value
    ensures s.None? ==> r == "null"
  {
    match s
    case None => "null"
    case Some(t) => t
  }

  // ---------------------------------------------------------------------
  // Decimal digits

  predicate IsDigit(c: char) {
    '0' <= c <= '9'
  }

  predicate AllDigits(s: string) {
    forall i :: 0 <= i < |s| ==> IsDigit(s[i])
  }

  function DigitValue(c: char): (d: nat)
    requires IsDigit(c)
    ensures d < 10
  {
    c as int - '0' as int
  }

  function DigitChar(d: nat): (c: char)
    requires d < 10
    ensures IsDigit(c) && DigitValue(c) == d
  {
    ('0' as int + d) as char
  }

  /** The number a run of decimal digits denotes, read most-significant
      digit first; the empty run denotes 0. */
  function DigitsValue(s: string): (v: nat)
    requires AllDigits(s)
    decreases |s|
  {
    if |s| == 0 then 0
    else DigitsValue(s[..|s| - 1]) * 10 + DigitValue(s[|s| - 1])
  }

  // ---------------------------------------------------------------------
  // Integer.parseInt(s) (radix 10)

  /** Splits off the one optional leading sign `parseInt` accepts. */
  function SplitSign(s: string): (r: (bool, string))
    ensures |r.1| <= |s|
    ensures r.0 ==> |s| > 0 && s[0] == '-'
  {
    if |s| > 0 && s[0] == '-' then (true, s[1..])
    else if |s| > 0 && s[0] == '+' then (false, s[1..])
    else (false, s)
  }

  /** An optional sign followed by at least one decimal digit. */
  predicate IsDecimal(s: string) {
    var (_, digits) := SplitSign(s);
    |digits| > 0 && AllDigits(digits)
  }

  function DecimalValue(s: string): (v: int)
    requires IsDecimal(s)
  {
    var (negative, digits) := SplitSign(s);
    if negative then -(DigitsValue(digits) as int) else DigitsValue(digits)
  }

  /** The message `NumberFormatException.forInputString` builds. */
  function ForInputString(s: string): (m: string) {
    "For input string: \"" + s + "\""
  }

  /** `Integer.parseInt(s)`: the value of a signed decimal that fits an
      `int`; anything else, null included, throws `NumberFormatException`. */
  function ParseInt(s: Option<string>): (r: Result<int, Exc>)
    ensures r.Success? <==> s.Some? && IsDecimal(s.value) && InInt32(DecimalValue(s.value))
    ensures r.Success? ==> InInt32(r.value) && r.value == DecimalValue(s.value)
    ensures r.Failure? ==> r.error.NumberFormat?
    ensures s.None? ==> r == Failure(NumberFormat("null"))
    ensures r.Failure? && s.Some? ==> r.error == NumberFormat(ForInputString(s.value))
  {
    match s
    case None => Failure(NumberFormat("null"))
    case Some(t) =>
      if IsDecimal(t) && InInt32(DecimalValue(t)) then Success(DecimalValue(t))
      else Failure(NumberFormat(ForInputString(t)))
  }

  // ---------------------------------------------------------------------
  // String.valueOf(int) / Integer.toString(n)

  function NatToString(m: nat): (r: string)
    decreases m
  {
    if m < 10 then [DigitChar(m)] else NatToString(m / 10) + [DigitChar(m % 10)]
  }

  /** The decimal form of a natural number is a non-empty run of digits
      that denotes it, with no leading zero unless the number is 0. */
  lemma {:induction false} NatToStringDigits(m: nat)
    ensures |NatToString(m)| > 0
    ensures AllDigits(NatToString(m))
    ensures DigitsValue(NatToString(m)) == m
    ensures NatToString(m)[0] == '0' ==> m == 0
    decreases m
  {
    if m >= 10 {
      NatToStringDigits(m / 10);
      var s := NatToString(m);
      assert s[..|s| - 1] == NatToString(m / 10);
      assert s[0] == NatToString(m / 10)[0];
    }
  }

  /** Decimal rendering of an `int`: a minus sign exactly for negatives,
      then the digits of the magnitude without leading zeros. */
  function FormatInt(n: int): (r: string)
    ensures |r| > 0
    ensures r[0] == '-' <==> n < 0
    ensures n < 0 ==> |r| > 1 && AllDigits(r[1..]) && DigitsValue(r[1..]) == -n && r[1] != '0'
    ensures n >= 0 ==> AllDigits(r) && DigitsValue(r) == n && (r[0] == '0' ==> n == 0)
  {
    var m: nat := if n < 0 then -n else n;
    NatToStringDigits(m);
    assert IsDigit(NatToString(m)[0]);
    if n < 0 then
      assert ("-" + NatToString(m))[1..] == NatToString(m);
      "-" + NatToString(m)
    else NatToString(m)
  }

  /** `Integer.parseInt` inverts `String.valueOf` on every `int`. */
  lemma ParseFormatRoundTrip(n: int)
    ensures InInt32(n) ==> ParseInt(Some(FormatInt(n))) == Success(n)
  {
    var s := FormatInt(n);
    if n < 0 {
      assert SplitSign(s) == (true, s[1..]);
    } else {
      assert IsDigit(s[0]);
      assert SplitSign(s) == (false, s);
    }
  }

  // ---------------------------------------------------------------------
  // String.equalsIgnoreCase

  function ToUpper(c: char): (u: char) {
    if 'a' <= c <= 'z' then (c as int - 32) as char else c
  }

  function ToLower(c: char): (l: char) {
    if 'A' <= c <= 'Z' then (c as int + 32) as char else c
  }

  /** The per-character test of `String.regionMatches(true, ...)`: equal,
      equal after upper-casing, or equal after lower-casing the upper-cased
      characters. */
  predicate CharEqualsIgnoreCase(a: char, b: char) {
    a == b || ToUpper(a) == ToUpper(b) || ToLower(ToUpper(a)) == ToLower(ToUpper(b))
  }

  function LowerCase(s: string): (r: string)
    ensures |r| == |s|
    ensures forall i :: 0 <= i < |s| ==> r[i] == ToLower(s[i])
  {
    seq(|s|, i requires 0 <= i < |s| => ToLower(s[i]))
  }

  /** `a.equalsIgnoreCase(b)`: same length and every character pair passes
      the per-character test. It holds exactly when the lower-cased forms
      are equal, so it is an equivalence. */
  predicate EqualsIgnoreCase(a: string, b: string)
    ensures EqualsIgnoreCase(a, b) <==> LowerCase(a) == LowerCase(b)
  {
    assert LowerCase(a) == LowerCase(b) ==> forall i :: 0 <= i < |a| ==> LowerCase(a)[i] == LowerCase(b)[i];
    |a| == |b| && forall i :: 0 <= i < |a| ==> CharEqualsIgnoreCase(a[i], b[i])
  }

  // ---------------------------------------------------------------------
  // Joiner.on(sep).join(parts)

  /** The `len` characters of `s` starting at `k`. */
  function Window(s: string, k: nat, len: nat): (w: string)
    requires k + len <= |s|
    ensures |w| == len
  {
    s[k..k + len]
  }

  /** `needle` occurs somewhere inside `hay`. */
  predicate Occurs(needle: string, hay: string) {
    exists k: nat :: k + |needle| <= |hay| && Window(hay, k, |needle|) == needle
  }

  /** An occurrence survives adding text on either side. */
  lemma OccursInContext(needle: string, before: string, hay: string, after: string)
    requires Occurs(needle, hay)
    ensures Occurs(needle, before + hay + after)
  {
    var k: nat :| k + |needle| <= |hay| && Window(hay, k, |needle|) == needle;
    var whole := before + hay + after;
    assert Window(whole, |before| + k, |needle|) == needle;
  }

  lemma OccursWhole(s: string)
    ensures Occurs(s, s)
  {
    assert Window(s, 0, |s|) == s;
  }

  function TotalLength(parts: seq<string>): (n: nat)
    decreases |parts|
  {
    if |parts| == 0 then 0 else |parts[0]| + TotalLength(parts[1..])
  }

  /** Guava's `Joiner.on(sep).join(parts)`: the parts in order with one
      separator between neighbours, so it starts with the first part and is
      as long as the parts plus one separator per gap. */
  function Join(sep: string, parts: seq<string>): (r: string)
    ensures |parts| == 0 ==> r == ""
    ensures |parts| > 0 ==> |r| == TotalLength(parts) + |sep| * (|parts| - 1)
    ensures |parts| > 0 ==> parts[0] <= r
    decreases |parts|
  {
    if |parts| == 0 then ""
    else if |parts| == 1 then parts[0]
    else parts[0] + sep + Join(sep, parts[1..])
  }

  /** Every part appears in the joined string right after the join of the
      parts before it and a separator. */
  lemma {:induction false} JoinContains(sep: string, parts: seq<string>, i: nat)
    returns (before: string, after: string)
    requires i < |parts|
    ensures Join(sep, parts) == before + parts[i] + after
    ensures i == 0 ==> before == ""
    ensures i > 0 ==> before == Join(sep, parts[..i]) + sep
    decreases i
  {
    if i == 0 {
      before := "";
      after := if |parts| == 1 then "" else sep + Join(sep, parts[1..]);
    } else {
      var b, a := JoinContains(sep, parts[1..], i - 1);
      before := parts[0] + sep + b;
      after := a;
      if i == 1 {
        assert parts[..1] == [parts[0]];
      } else {
        assert parts[1..][..i - 1] == parts[..i][1..];
      }
    }
  }

  /** Every part occurs in the joined string. */
  lemma JoinListsEvery(sep: string, parts: seq<string>)
    ensures forall i :: 0 <= i < |parts| ==> Occurs(parts[i], Join(sep, parts))
  {
    forall i | 0 <= i < |parts|
      ensures Occurs(parts[i], Join(sep, parts))
    {
      var before, after := JoinContains(sep, parts, i);
      OccursWhole(parts[i]);
      OccursInContext(parts[i], before, parts[i], after);
    }
  }
}

=== FILE: output_dir.dfy ===
/** `checkOutDir`: deciding what to do with the output directory before
    any configuration is assembled. The file system enters the model as the
    state of the output path and the outcome a recursive deletion would
    have. */
module OutputDir {
  import opened Wrappers
  import opened JavaLang
  import opened Console

  /** The output path: missing, an ordinary file, or a directory with the
      given entry names. */
  datatype DirState = Absent | RegularFile | Directory(entries: set<string>)

  /** What a recursive delete of the directory does: it removes the
      directory and everything in it, or fails with an I/O error message,
      leaving whatever it had not yet removed. */
  datatype Deletion = Deleted | DeletionFails(msg: string, remaining: DirState)

  /** The outcome of the check: what was printed, the path's state
      afterwards, and the exception thrown, if any. */
  datatype DirCheck = DirCheck(effects: seq<Effect>, dir: DirState, failure: Option<Exc>)

  const OverridingNotice: string := "Overriding output directory..."
  const ConflictMessage: string := "Output directory is not empty. If you want to override, use the -override option"

  /** A path the crawl can write its report to as it is: missing or an
      empty directory. */
  predicate Usable(d: DirState) {
    d == Absent || d == Directory({})
  }

  predicate NonEmptyDirectory(d: DirState) {
    d.Directory? && d.entries != {}
  }

  /** `checkOutDir(outputDir)`. An existing ordinary file has no listing,
      so reading its length throws `NullPointerException`. */
  function CheckOutDir(dir: DirState, overrideRequested: bool, deletion: Deletion): (c: DirCheck)
    ensures c.failure.None? <==> Usable(dir) || (NonEmptyDirectory(dir) && overrideRequested && deletion.Deleted?)
    ensures c.failure.None? ==> Usable(c.dir)
    ensures Usable(dir) ==> c == DirCheck([], dir, None)
    ensures dir == RegularFile ==> c == DirCheck([], dir, Some(NullPointer))
    ensures NonEmptyDirectory(dir) && !overrideRequested ==> c == DirCheck([], dir, Some(IllegalState(ConflictMessage)))
    ensures NonEmptyDirectory(dir) && overrideRequested ==> c.effects == [Stdout(OverridingNotice)]
    ensures NonEmptyDirectory(dir) && overrideRequested && deletion.Deleted? ==> c.dir == Absent
    ensures NonEmptyDirectory(dir) && overrideRequested && deletion.DeletionFails? ==>
      c.dir == deletion.remaining && c.failure == Some(Runtime(deletion.msg))
    ensures c.dir != dir ==> overrideRequested && NonEmptyDirectory(dir)
  {
    match dir
    case Absent => DirCheck([], dir, None)
    case RegularFile => DirCheck([], dir, Some(NullPointer))
    case Directory(entries) =>
      if entries == {} then DirCheck([], dir, None)
      else if overrideRequested then
        match deletion
        case Deleted => DirCheck([Stdout(OverridingNotice)], Absent, None)
        case DeletionFails(msg, remaining) => DirCheck([Stdout(OverridingNotice)], remaining, Some(Runtime(msg)))
      else DirCheck([], dir, Some(IllegalState(ConflictMessage)))
  }

  /** A directory the check accepted passes the check again untouched,
      whatever the flags and the file system would do. */
  lemma CheckOutDirSettles(dir: DirState, overrideRequested: bool, deletion: Deletion,
                           overrideAgain: bool, deletionAgain: Deletion)
    requires CheckOutDir(dir, overrideRequested, deletion).failure.None?
    ensures var after := CheckOutDir(dir, overrideRequested, deletion).dir;
      CheckOutDir(after, overrideAgain, deletionAgain) == DirCheck([], after, None)
  {
  }
}

=== FILE: runner_properties.dfy ===
/** Properties of whole runs of the entry point: which of version, help and
    configuration a command line leads to, the order in which the URL, the
    output directory and the option values are examined, and worked
    command lines. */
module RunnerProperties {
  import opened Wrappers
  import opened JavaLang
  import opened CliOptions
  import opened Browsers
  import opened CrawlConfig
  import opened Console
  import opened OutputDir
  import opened JarRunner

  /** With the version flag present the version is printed, no
      configuration is built, no crawl starts and the output path is not
      touched, whatever else the command line holds. */
  lemma VersionFlagWins(args: seq<string>, cl: CommandLine, env: Env, crawl: CrawlRun)
    requires cl.HasOption(Version)
    ensures NewJarRunner(args, Parsed(cl), env).result.Success? ==>
      NewJarRunner(args, Parsed(cl), env).result.value.None?
    ensures env.versionResource.Success? ==>
      Main(args, Parsed(cl), env, crawl) == Termination([Stdout(env.versionResource.value)], env.outputDir, 0)
    ensures env.versionResource.Failure? ==>
      Main(args, Parsed(cl), env, crawl) == Termination([Stderr(env.versionResource.error)], env.outputDir, 1)
  {
  }

  /** Help is printed, and nothing else happens, exactly when the command
      line parses, has no version flag and has fewer than two raw
      arguments, flags included. */
  lemma HelpExactlyOnShortCommandLine(args: seq<string>, parsed: ParseResult, env: Env)
    ensures NewJarRunner(args, parsed, env) == Runner([HelpScreenFor(env.browserTypes)], env.outputDir, Success(None))
        <==> parsed.Parsed? && !parsed.cl.HasOption(Version) && |args| < 2
  {
  }

  /** Two or more raw arguments with fewer than two positionals: the
      lookup of the missing positional throws, and `main` prints its index
      and exits with 1 instead of showing help. */
  lemma RawCountNotPositionals(args: seq<string>, cl: CommandLine, env: Env, crawl: CrawlRun)
    requires !cl.HasOption(Version) && |args| >= 2 && |cl.args| < 2
    ensures NewJarRunner(args, Parsed(cl), env) == Runner([], env.outputDir, Failure(IndexOutOfBounds(|cl.args|)))
    ensures Main(args, Parsed(cl), env, crawl) == Termination([Stderr(FormatInt(|cl.args|))], env.outputDir, 1)
  {
  }

  /** A URL the validator rejects stops the run before the output
      directory is looked at. */
  lemma UrlCheckedFirst(args: seq<string>, cl: CommandLine, env: Env, crawl: CrawlRun)
    requires !cl.HasOption(Version) && |args| >= 2 && |cl.args| >= 2
    requires !env.validUrl(cl.args[0])
    ensures Main(args, Parsed(cl), env, crawl) == Termination([Stderr(InvalidUrlMessage)], env.outputDir, 1)
  {
  }

  /** A non-empty output directory without the override flag is a
      conflict: reported, untouched, status 1. */
  lemma ConflictLeavesDirectory(args: seq<string>, cl: CommandLine, env: Env, crawl: CrawlRun)
    requires !cl.HasOption(Version) && |args| >= 2 && |cl.args| >= 2
    requires env.validUrl(cl.args[0])
    requires NonEmptyDirectory(env.outputDir) && !cl.HasOption(Override)
    ensures Main(args, Parsed(cl), env, crawl) == Termination([Stderr(ConflictMessage)], env.outputDir, 1)
  {
  }

  /** The output directory is emptied before the option values are read:
      with override on a non-empty directory, a bad browser or number still
      leaves the directory deleted, and no crawl starts. */
  lemma DirectoryDeletedBeforeValuesParsed(args: seq<string>, cl: CommandLine, env: Env, crawl: CrawlRun)
    requires !cl.HasOption(Version) && |args| >= 2 && |cl.args| >= 2
    requires env.validUrl(cl.args[0])
    requires NonEmptyDirectory(env.outputDir) && cl.HasOption(Override) && env.deletion == Deleted
    requires !ValuesValid(cl, env.browserTypes)
    ensures Main(args, Parsed(cl), env, crawl).dir == Absent
    ensures Main(args, Parsed(cl), env, crawl).exitCode == 1
    ensures forall config :: CrawlStarted(config) !in Main(args, Parsed(cl), env, crawl).effects
    ensures Main(args, Parsed(cl), env, crawl).effects[0] == Stdout(OverridingNotice)
  {
  }

  /** An invalid option value is reported after whatever the directory
      check printed, the directory stays as the check left it, and the
      status is 1. */
  lemma BadValueReportedAfterDirectoryCheck(args: seq<string>, cl: CommandLine, env: Env, crawl: CrawlRun)
    requires ReachesReadConfig(args, cl, env)
    requires !ValuesValid(cl, env.browserTypes)
    ensures var check := CheckOutDir(env.outputDir, cl.HasOption(Override), env.deletion);
      Main(args, Parsed(cl), env, crawl)
        == Termination(check.effects + [Stderr(Report(ReadConfig(cl, cl.args[0], cl.args[1], env.browserTypes).error))],
                       check.dir, 1)
  {
  }

  /** A configuration reaches the engine exactly when the command line
      parses, has no version flag, has two raw arguments and two
      positionals, names a valid URL, the output directory is usable or
      could be deleted, and every option value is valid. */
  lemma CrawlStartsExactlyWhenConfigured(args: seq<string>, parsed: ParseResult, env: Env, crawl: CrawlRun)
    ensures (exists config :: CrawlStarted(config) in Main(args, parsed, env, crawl).effects) <==>
      parsed.Parsed? && ReachesReadConfig(args, parsed.cl, env) && ValuesValid(parsed.cl, env.browserTypes)
  {
  }

  // ---------------------------------------------------------------------
  // Worked command lines

  /** `http://example.com /tmp/out` with no flags: firefox, one browser,
      builder defaults for depth and states, report in /tmp/out. */
  lemma PlainCommandLine(env: Env)
    requires env.validUrl("http://example.com") && env.outputDir == Absent
    ensures Main(["http://example.com", "/tmp/out"],
                 Parsed(CommandLine({}, map[], ["http://example.com", "/tmp/out"])), env, CrawlCompletes)
      == Termination([CrawlStarted(Config("http://example.com", "firefox", 1, None, None,
                                          [CrawlOverview("/tmp/out")], true))], Absent, 0)
  {
  }

  /** `--version` alone prints the packaged version and exits with 0. */
  lemma VersionOnly(env: Env, crawl: CrawlRun)
    requires env.versionResource == Success("3.0")
    ensures Main(["--version"], Parsed(CommandLine({Version}, map[], [])), env, crawl)
      == Termination([Stdout("3.0")], env.outputDir, 0)
  {
  }

  /** No arguments: help, status 0. */
  lemma NoArguments(env: Env, crawl: CrawlRun)
    ensures Main([], Parsed(CommandLine({}, map[], [])), env, crawl)
      == Termination([HelpScreenFor(env.browserTypes)], env.outputDir, 0)
  {
  }

  /** An ftp URL is rejected with status 1. */
  lemma FtpUrlRejected(env: Env, crawl: CrawlRun)
    requires !env.validUrl("ftp://example.com")
    ensures Main(["ftp://example.com", "/tmp/out"],
                 Parsed(CommandLine({}, map[], ["ftp://example.com", "/tmp/out"])), env, crawl)
      == Termination([Stderr(InvalidUrlMessage)], env.outputDir, 1)
  {
  }

  /** `-d <value>` with a value that is not a signed decimal: the
      number-format handler prefixes the parser's message, e.g.
      `Could not parse number For input string: "abc"`. */
  lemma NonNumericDepth(env: Env, crawl: CrawlRun, value: string)
    requires env.validUrl("http://example.com") && env.outputDir == Absent
    requires !IsDecimal(value)
    ensures Main(["-d", value, "http://example.com", "/tmp/out"],
                 Parsed(CommandLine({Depth}, map[Depth := value], ["http://example.com", "/tmp/out"])), env, crawl)
      == Termination([Stderr(NumberFormatPrefix + ForInputString(value))], Absent, 1)
  {
    var cl := CommandLine({Depth}, map[Depth := value], ["http://example.com", "/tmp/out"]);
    assert OptionalInt(cl, Depth) == Failure(NumberFormat(ForInputString(value)));
    BadValueReportedAfterDirectoryCheck(["-d", value, "http://example.com", "/tmp/out"], cl, env, crawl);
  }

  /** `chrome` is found as the third of `firefox, ie, chrome`. */
  lemma ChromeSelected(types: seq<string>)
    requires types == ["firefox", "ie", "chrome"]
    ensures BrowserTypeFromStr(Some("chrome"), types) == Success("chrome")
  {
    assert LowerCase("chrome")[0] != LowerCase(types[0])[0];
    assert |LowerCase("chrome")| != |LowerCase(types[1])|;
    assert EqualsIgnoreCase("chrome", types[2]);
  }

  /** The configuration `-b chrome -p 2 -d 5 -s 10` leads to. */
  lemma AllValueFlagsConfig(types: seq<string>, cl: CommandLine)
    requires types == ["firefox", "ie", "chrome"]
    requires cl == CommandLine({Browser, Parallel, Depth, MaxStates},
                               map[Browser := "chrome", Parallel := "2", Depth := "5", MaxStates := "10"],
                               ["http://example.com", "/tmp/out"])
    ensures ReadConfig(cl, "http://example.com", "/tmp/out", types)
      == Success(Config("http://example.com", "chrome", 2, Some(5), Some(10), [CrawlOverview("/tmp/out")], true))
  {
    ChromeSelected(types);
    assert cl.GetOptionValue(Browser) == Some("chrome");
    assert ParseInt(cl.GetOptionValue(Parallel)) == Success(2);
    assert ParseInt(cl.GetOptionValue(Depth)) == Success(5);
    assert ParseInt(cl.GetOptionValue(MaxStates)) == Success(10);
  }

  /** Every value flag at once: `-b chrome -p 2 -d 5 -s 10` starts the
      crawl with the chrome constant, two browsers, depth 5 and at most
      10 states. */
  lemma AllValueFlags(env: Env)
    requires env.validUrl("http://example.com") && env.outputDir == Absent
    requires env.browserTypes == ["firefox", "ie", "chrome"]
    ensures Main(["-b", "chrome", "-p", "2", "-d", "5", "-s", "10", "http://example.com", "/tmp/out"],
                 Parsed(CommandLine({Browser, Parallel, Depth, MaxStates},
                                    map[Browser := "chrome", Parallel := "2", Depth := "5", MaxStates := "10"],
                                    ["http://example.com", "/tmp/out"])), env, CrawlCompletes)
      == Termination([CrawlStarted(Config("http://example.com", "chrome", 2, Some(5), Some(10),
                                          [CrawlOverview("/tmp/out")], true))], Absent, 0)
  {
    var cl := CommandLine({Browser, Parallel, Depth, MaxStates},
                          map[Browser := "chrome", Parallel := "2", Depth := "5", MaxStates := "10"],
                          ["http://example.com", "/tmp/out"]);
    AllValueFlagsConfig(env.browserTypes, cl);
  }

  /** When the enumeration holds the default, every crawl runs on one of
      its constants, whether `-b` was given or not. */
  lemma StartedBrowserIsConstant(args: seq<string>, parsed: ParseResult, env: Env, crawl: CrawlRun, config: Config)
    requires DefaultIsConstant(env)
    requires CrawlStarted(config) in Main(args, parsed, env, crawl).effects
    ensures config.browser in env.browserTypes
  {
  }

  /** An ordinary file given as output directory: the check's listing is
      null, so `main` prints `null` and exits with 1; the file stays. */
  lemma OrdinaryFileAsOutputDirectory(env: Env, crawl: CrawlRun)
    requires env.validUrl("http://example.com") && env.outputDir == RegularFile
    ensures Main(["http://example.com", "/tmp/out"],
                 Parsed(CommandLine({}, map[], ["http://example.com", "/tmp/out"])), env, crawl)
      == Termination([Stderr("null")], RegularFile, 1)
  {
  }

  /** `-o http://example.com /tmp/out` on a non-empty directory that is
      deleted cleanly: the notice, then the crawl with the defaults, status
      0, and the directory gone. */
  lemma OverrideThenCrawl(env: Env)
    requires env.validUrl("http://example.com")
    requires NonEmptyDirectory(env.outputDir) && env.deletion == Deleted
    ensures Main(["-o", "http://example.com", "/tmp/out"],
                 Parsed(CommandLine({Override}, map[], ["http://example.com", "/tmp/out"])), env, CrawlCompletes)
      == Termination([Stdout(OverridingNotice),
                      CrawlStarted(Config("http://example.com", "firefox", 1, None, None,
                                          [CrawlOverview("/tmp/out")], true))], Absent, 0)
  {
  }

  /** `-h http://example.com /tmp/out` crawls: the help flag is declared but
      never consulted. */
  lemma HelpFlagIgnoredWithTwoPositionals(env: Env)
    requires env.validUrl("http://example.com") && env.outputDir == Absent
    ensures Main(["-h", "http://example.com", "/tmp/out"],
                 Parsed(CommandLine({Help}, map[], ["http://example.com", "/tmp/out"])), env, CrawlCompletes)
      == Termination([CrawlStarted(Config("http://example.com", "firefox", 1, None, None,
                                          [CrawlOverview("/tmp/out")], true))], Absent, 0)
  {
  }

  /** `-o http://example.com`: two raw arguments but one positional, so the
      output directory lookup throws and "1" is printed. */
  lemma OverrideFlagCountsAsArgument(env: Env, crawl: CrawlRun)
    ensures Main(["-o", "http://example.com"],
                 Parsed(CommandLine({Override}, map[], ["http://example.com"])), env, crawl)
      == Termination([Stderr("1")], env.outputDir, 1)
  {
  }
}

=== FILE: wrappers.dfy ===
/** Values standing in for Java's nulls and exceptions, so that every
    operation of the model is a total function. */
module Wrappers {

  /** A Java reference: `None` is `null`. */
  datatype Option<+T> = None | Some(value: T)

  /** A Java call that either returns `value` or throws `error`. Usable
      with `:-`, which passes a thrown error straight on, as an exception
      propagates out of a Java method. */
  datatype Result<+T, +E> = Success(value: T) | Failure(error: E) {

    predicate IsFailure() {
      Failure?
    }

    /** The same thrown error, seen from a caller expecting a `U`. */
    function PropagateFailure<U>(): (r: Result<U, E>)
      requires Failure?
      ensures r.Failure? && r.error == error
    {
      Failure(error)
    }

    /** The returned value. */
    function Extract(): (v: T)
      requires Success?
      ensures Success(v) == this
    {
      value
    }
  }
}
